=== FILE: README.md ===
# WhisperDictate, modelled in Dafny

WhisperDictate is a macOS menu-bar dictation utility. A global hotkey
(Control-Option-D) toggles recording. Stopping a recording runs the external
`whisper-cli` speech-to-text tool on the recorded WAV file. The tool's caption
output is parsed into one line of text, which is put on the clipboard and
pasted into the focused application with a synthetic Cmd+V.

This project models the logic of that pipeline. It covers both variants of
the app:

- the newer `macos/src/main.swift`, with preferences, validation and a
  status line;
- the earlier top-level `main.swift`, with a fixed command and no checks.

The modules follow the program:

| module | what it is |
|---|---|
| `Options` | `Option<T>` with `GetOr`, for Swift's `??` |
| `Text` | `trimmingCharacters(in: .whitespaces)`, `lowercased()` as far as it matters here, `components(separatedBy: "\n")` |
| `Environment` | the filesystem as uninterpreted facts: a `standardizingPath` function and the sets of existing and of executable paths; the home directory and the audio path |
| `Settings` | the three UserDefaults-backed preferences and their defaults |
| `Languages` | `SupportedLanguages.codes` and `isValid` |
| `ModelPath` | `isValidModelPath`, `checkModelExists`, `modelPathChanged` |
| `Locator` | `findWhisperCLI` |
| `Caption` | the output-parsing loop of `transcribe()`, identical in both variants |
| `Transcription` | the decision chain of `transcribe()` in the newer variant |
| `Capture` | the `isRecording` / recorder / audio-file logic of `toggleRecording`, `startRecording`, `stopRecordingAndTranscribe`, shared by both variants |
| `Dictation` | the newer app as an event-driven state machine |
| `Legacy` | the earlier app as an event-driven state machine |

The model uses these oracles:

- A tool run is an oracle value: either the process could not be launched,
  or it finished and left its decoded standard output.
- Whether `AVAudioRecorder` could be created, and whether its `record()`
  actually started capturing, are two booleans carried by the hotkey event.
- The result of a transcription arrives as a separate `Completed` event,
  which stands for the asynchronous hop back to the main thread.

Each step returns its side effects as values: the sound played, the process
whose launch was attempted (the attempt may fail), and whether Cmd+V is
sent.

Behaviour of the code worth knowing:

- There is no busy guard. `isRecording` is cleared as soon as a recording
  stops. A hotkey press during transcription therefore starts a new
  recording (`Dictation.NoBusyGuard`).
- That new recording uses the same audio path. When the earlier
  transcription's launch was attempted, its cleanup removes the file the new
  recording is writing. It also puts back the microphone icon and a "Ready" or "Error"
  status while capture goes on (`Dictation.CompletionDuringRecording`).
- The clipboard is not saved or restored. A paste overwrites it
  (`Dictation.PasteReplacesClipboard`, `Dictation.ClipboardNotRestored`).
- The exit status of `whisper-cli` is never read. Only a failure to launch
  the process gives "Error". A run that fails is judged by its standard
  output alone: caption lines it printed are pasted, and only an empty
  transcript gives "Ready" with the Basso sound.
- The traversal check is `contains("..")` on the standardized path. It is a
  substring test, not a path-segment test, so `/m/ggml..bin` is refused
  (`ModelPath.DoubleDotInNameRefused`).
- The language table has 31 entries.
- A failed `startRecording` in the newer variant only plays Basso. It does
  not update the status line (`Dictation.ToggleRecording`).
- The result of `record()` is not read. Once the recorder is created, the
  flag, the red dot and "Recording..." are set even if nothing is captured
  (`Capture.UncheckedRecord`, `Dictation.UncheckedRecordShowsRecording`).
- The audio file is removed only after a launch was attempted, on success
  and on launch failure alike. The three early exits of `transcribe()` (model,
  language, locator) leave it in place. The earlier variant never removes
  it.

## Model

| member | source | states |
|---|---|---|
| Text.Trim | macos/src/main.swift:515 | the result has no Foundation whitespace (tab or Unicode Zs) at either end and is no longer than the input |
| Text.TrimIsInfix | macos/src/main.swift:520 | the trimmed string is the infix left after cutting a run of whitespace off each end |
| Text.TrimIsInner | macos/src/main.swift:515 | trimming whitespace-run + r + whitespace-run, where r has no whitespace at its ends, gives exactly r |
| Text.TrimEmptyIff | macos/src/main.swift:520 | trimming gives the empty string exactly when every character is whitespace; line feeds are not whitespace |
| Text.TrimIdempotent | macos/src/main.swift:520 | trimming twice is trimming once |
| Text.Lowercase | macos/src/main.swift:51 | same length as the input; no 'A'-'Z' or Kelvin sign is left; 'A'-'Z' become the letter 32 code points higher, the Kelvin sign becomes 'k', and every other character is kept in place |
| Text.LowercaseIdempotent | macos/src/main.swift:51 | lower-casing a lower-cased string changes nothing |
| Text.Split | macos/src/main.swift:510 | at least one piece, and no piece contains the separator |
| Text.SplitJoin | macos/src/main.swift:510 | joining the pieces with the separator gives back the input: nothing is lost, empty lines included |
| Text.SplitNoSeparator | macos/src/main.swift:510 | a string without a line feed is one line |
| Text.SplitFirstLine | macos/src/main.swift:510 | the text before the first line feed is the first line, and the rest splits on its own |
| Caption.IndexOf | macos/src/main.swift:514 | the position of the first occurrence: the character is there and nowhere before it |
| Caption.CaptionText | macos/src/main.swift:513-516 | a line contributes exactly when it starts with '[' and contains ']', and what it contributes is trimmed |
| Caption.CaptionTextAfterFirstBracket | macos/src/main.swift:514-515 | a contributing line's text is the part after its first ']', trimmed; that ']' is not the opening character |
| Caption.Captions | macos/src/main.swift:512-517 | the loop keeps at most one contribution per line |
| Caption.Accumulate | macos/src/main.swift:512-517 | the accumulator holds at least one character per contribution, the space after it |
| Caption.Collect | macos/src/main.swift:512-518 | reading lines in order and keeping what each one contributes gives at most one result per line |
| Caption.CollectSnoc | macos/src/main.swift:512-518 | one more line at the end adds its contribution at the end, or nothing |
| Caption.CollectAppend | macos/src/main.swift:512-518 | collecting over concatenated lines is concatenating what each part collects |
| Caption.CollectEmptyIff | macos/src/main.swift:512-518 | nothing is collected exactly when no line contributes |
| Caption.CollectAll | macos/src/main.swift:512-518 | every collected text has any property every single contribution has |
| Caption.CaptionsTrimmed | macos/src/main.swift:515-516 | every contribution of the lines is trimmed |
| Caption.CaptionsEmptyIff | macos/src/main.swift:512-518 | there is no contribution exactly when no line starts with '[' and contains ']' |
| Caption.CaptionsAppend | macos/src/main.swift:512-518 | the contributions of concatenated outputs are the concatenated contributions: line order is kept |
| Caption.NoiseIgnored | macos/src/main.swift:513-514 | a line that does not contribute (no '[' prefix, or '[' but no ']') can be removed without changing the contributions |
| Caption.OneCaption | macos/src/main.swift:514-516 | a contributing line adds exactly its own text, in its place between the lines before and after it |
| Caption.AccumulateAllSpace | macos/src/main.swift:516 | the accumulated "text + space" string is all whitespace exactly when every contribution is |
| Caption.Transcript | macos/src/main.swift:510-520 | the transcript has no whitespace at either end |
| Caption.TranscriptEmptyIff | macos/src/main.swift:520-526 | the transcript is empty exactly when every contribution is empty, which includes output without any caption line |
| Caption.BlankIffAllEmpty | macos/src/main.swift:516-520 | for trimmed contributions, the trimmed accumulator is empty exactly when all of them are empty |
| Caption.TranscriptJoinsCaptions | macos/src/main.swift:511-520 | when no contribution is empty, the transcript is the contributions in line order, separated by single spaces |
| Caption.AccumulateIsJoin | macos/src/main.swift:516 | the accumulator is the contributions joined by single spaces, plus one trailing space |
| Caption.JoinIsTrimmed | macos/src/main.swift:516-520 | joining non-empty trimmed texts with spaces gives a non-empty trimmed text |
| Caption.UnclosedBracketIgnored | macos/src/main.swift:513-518 | a caption line followed by a '[' line without ']' gives only the caption's words |
| Caption.OneLineTranscript | macos/src/main.swift:510-520 | `[stamp]` + whitespace + words + line feed gives exactly the words |
| Caption.TimestampedLineExample | macos/src/main.swift:510-520 | "[00:00:00.000 --> 00:00:01.000]  test" followed by a line feed gives "test" |
| Caption.BlankOutputExample | macos/src/main.swift:510-520 | output of blank lines only gives the empty transcript |
| Caption.AccumulateStep | macos/src/main.swift:513-517 | one more line adds its text and a space to the accumulator when it is a caption line, and nothing otherwise |
| Caption.ParseOutput | macos/src/main.swift:510-520 | the loop as written computes the transcript, and its result is trimmed |
| Languages.CaseInsensitive | macos/src/main.swift:50-52 | valid exactly when the lower case is a key of the table, so a code and its lower case are accepted alike |
| Languages.KeyShape | macos/src/main.swift:16-48 | every key of the table is two ASCII lower-case letters |
| Languages.IsValid | macos/src/main.swift:50-52 | an accepted code has two characters, and its lower case is two ASCII lower-case letters |
| Languages.AcceptsAnyCase | macos/src/main.swift:16-52 | "hu", "EN" and "De" are accepted |
| Languages.RefusesOthers | macos/src/main.swift:16-52 | "", "xx", "eng" and "en " are refused |
| Settings.Language | macos/src/main.swift:72-75 | the stored language, or "hu" when none is stored |
| Settings.ModelPath | macos/src/main.swift:77-80 | the stored model path, or ~/.whisper-models/ggml-medium.bin under the given home when none is stored |
| Settings.PlaySounds | macos/src/main.swift:82-85 | the stored sound switch, or on when none is stored |
| Settings.UnsetReadsDefaults | macos/src/main.swift:72-85 | nothing stored reads as language "hu", model ~/.whisper-models/ggml-medium.bin and sounds on |
| Settings.SetLanguage | macos/src/main.swift:72-75 | a stored language reads back, and the other two preferences read as before |
| Settings.SetModelPath | macos/src/main.swift:77-80 | a stored model path reads back for any home directory, and the other two preferences read as before |
| Settings.SetPlaySounds | macos/src/main.swift:82-85 | a stored sound switch reads back, and the other two preferences read as before |
| ModelPath.Validate | macos/src/main.swift:294-312 | valid exactly when there is no error message, and a message is one of the three texts; which one is fixed by the three lemmas below |
| ModelPath.ExtensionCheckedFirst | macos/src/main.swift:296-298 | a path whose lower case does not end in ".bin" gets "Model must be a .bin file" on every filesystem |
| ModelPath.TraversalRefused | macos/src/main.swift:301-304 | a ".bin" path whose standardized form contains ".." gets "Invalid path" whatever files exist |
| ModelPath.MissingFileNotFound | macos/src/main.swift:306-309 | a ".bin" path with no ".." in its standardized form that does not exist gets "Model not found" |
| ModelPath.ValidIff | macos/src/main.swift:294-312 | valid exactly when the suffix passes, the standardized path has no "..", and it exists |
| ModelPath.SuffixIgnoresCase | macos/src/main.swift:296 | an existing ".BIN" model is accepted |
| ModelPath.DoubleDotInNameRefused | macos/src/main.swift:301-303 | "/m/ggml..bin" is refused as an invalid path although it climbs no directory |
| ModelPath.ModelStatus | macos/src/main.swift:314-321 | the status is "Ready" exactly when the stored path validates, and otherwise the warning sign followed by the validator's message |
| ModelPath.ModelPathChanged | macos/src/main.swift:235-242 | a typed path is stored only when it validates, otherwise the preferences are unchanged; the other preferences never move; the status is refreshed from the stored path |
| Locator.FirstExecutable | macos/src/main.swift:455-460 | nothing is found exactly when no candidate is executable; what is found is an executable candidate with no executable one before it |
| Locator.FindWhisperCli | macos/src/main.swift:446-461 | a found tool is executable and is one of the four candidate locations; nothing is found exactly when none of them is executable |
| Locator.HomebrewPreferred | macos/src/main.swift:448-457 | an executable /opt/homebrew copy is always the one picked |
| Locator.LaterOnlyIfEarlierMissing | macos/src/main.swift:455-459 | a later candidate is picked only when every earlier one is not executable |
| Transcription.Arguments | macos/src/main.swift:497 | six arguments: -m with the model path, -l with the lower-cased language, -f with the audio path |
| Transcription.Interpret | macos/src/main.swift:503-545 | a launch failure is a failed run; otherwise a non-empty transcript is recognized text and an empty one is "no speech" |
| Transcription.Transcribe | macos/src/main.swift:464-546 | a launch is attempted exactly when all three guards pass; the audio is removed exactly when a launch was attempted, whether or not it succeeded; the attempted process is a candidate tool with a valid model, a table language in lower case and this process's audio file; recognized text is non-empty and trimmed |
| Transcription.ModelCheckedFirst | macos/src/main.swift:466-474 | a failing model path stops everything with its own message, attempts no launch and leaves the audio |
| Transcription.LanguageCheckedSecond | macos/src/main.swift:476-483 | with a valid model, an invalid language stops before the tool is looked for |
| Transcription.LocatorCheckedLast | macos/src/main.swift:485-493 | with valid model and language, a missing tool stops without attempting a launch |
| Transcription.EarlyExitIgnoresTool | macos/src/main.swift:466-493 | an early exit does not depend on the tool's output |
| Transcription.AttemptedRun | macos/src/main.swift:495-545 | when the guards pass, the attempted command is the located tool with the documented argument vector, the audio is removed, and the tool's result decides paste, "no speech" or error |
| Transcription.RecognizedIsTranscript | macos/src/main.swift:507-527 | recognized text is the parser's transcript of the tool's output |
| Transcription.LanguagePassedLowerCase | macos/src/main.swift:497 | a stored "EN" reaches the tool as "en" |
| Capture.Start | macos/src/main.swift:405-430 | the old file is removed first; the flag is set exactly when the recorder could be created, whether or not `record()` started; capture and a new file happen only when it did; on a failed creation nothing else changes |
| Capture.Stop | macos/src/main.swift:432-434 | stopping clears the flag and the capture unconditionally and keeps the recorded file |
| Capture.Toggle | macos/src/main.swift:397-403 | while recording it stops, otherwise it starts; the same logic in main.swift:65-71 |
| Capture.ToggleFlips | main.swift:65-103 | toggling while recording always ends it; toggling while idle sets the flag exactly when the recorder could be created, whatever `record()` did |
| Capture.FailedStartLeavesNoFile | main.swift:74-98 | a failed start leaves no file at the audio path and does not set the flag |
| Capture.UncheckedRecord | macos/src/main.swift:419-421 | a created recorder whose `record()` does not start leaves the flag set with nothing captured and no file |
| Capture.ToggleKeepsConsistent | macos/src/main.swift:397-434 | nothing is captured without the flag, across toggles |
| Capture.StartThenStop | main.swift:65-103 | start then stop ends with a stopped recorder and a fresh file |
| Dictation.Chime | macos/src/main.swift:424-437 | a sound is played exactly when sound feedback is on |
| Dictation.Launch | macos/src/main.swift:87-95 | the app starts idle, with the microphone icon and "Ready" exactly when the stored model validates |
| Dictation.ToggleRecording | macos/src/main.swift:397-443 | the recorder follows the toggle; a stop dispatches one more transcription and shows the hourglass, "Transcribing..." and Pop; a start shows the red dot, "Recording..." and Tink; a failed start plays Basso and keeps icon and status; preferences and clipboard stay; nothing is attempted or pasted |
| Dictation.Complete | macos/src/main.swift:464-571 | one pending transcription fewer; the microphone icon comes back; recording state is unchanged; the attempted launch is the chain's; Cmd+V is sent exactly when text was recognized, with that text on the clipboard, and otherwise the clipboard is untouched; Glass follows a paste and Basso every other ending |
| Dictation.Step | macos/src/main.swift:397-443 | a completion with nothing pending changes nothing; only completions attempt launches or paste |
| Dictation.StepKeepsConsistent | macos/src/main.swift:397-443 | no event lets the recorder capture without the flag, and the red dot is shown only while the flag is set |
| Dictation.ReplayKeepsConsistent | macos/src/main.swift:397-443 | the same holds after any sequence of events |
| Dictation.MutedIsSilent | macos/src/main.swift:82-85 | with sound feedback off, no event plays a sound |
| Dictation.NoBusyGuard | macos/src/main.swift:432-443 | right after a stop, with its transcription pending, the hotkey starts a new recording |
| Dictation.UncheckedRecordShowsRecording | macos/src/main.swift:419-424 | a recorder that is created but does not start still shows the red dot, "Recording..." and Tink while nothing is captured |
| Dictation.CompletionDuringRecording | macos/src/main.swift:519-545 | a transcription with an attempted launch that completes during a newer recording removes that recording's file and shows the idle icon and status while capture continues |
| Dictation.PasteReplacesClipboard | macos/src/main.swift:549-552 | after a paste the clipboard holds exactly the non-empty transcript of the tool's output |
| Dictation.ClipboardNotRestored | macos/src/main.swift:549-570 | what was on the clipboard before a paste has no effect on any part of the outcome |
| Dictation.CompleteIgnoresClipboard | macos/src/main.swift:549-552 | a completion that recognizes text ends the same whatever the clipboard held |
| Dictation.CompletionStatus | macos/src/main.swift:467-545 | the status after a completion is the model warning, "Invalid language", "whisper-cli not found", "Error" or "Ready", by outcome |
| Legacy.Command | main.swift:113-116 | the fixed executable, with the argument vector the newer variant builds from the default preferences and the old audio path |
| Legacy.Step | main.swift:65-185 | a hotkey always plays a sound and never attempts a launch or pastes; a completion never touches the recorder and attempts the fixed command |
| Legacy.ToggleRecording | main.swift:65-111 | the same recorder logic as the newer variant, and a sound is always played |
| Legacy.Complete | main.swift:113-185 | a launch of the fixed command is always attempted; the recorder and audio file are untouched; Cmd+V is sent exactly when text was recognized, with that text on the clipboard |
| Legacy.PastesTranscript | main.swift:130-149 | a paste happens exactly when the tool ran and its transcript is non-empty; the pasted text is that transcript; otherwise the clipboard is unchanged |
| Legacy.RunsWithoutValidation | main.swift:113-116 | a launch of the fixed command is attempted even when the model file fails validation and no whisper-cli is executable |
| Legacy.AudioKept | main.swift:113-158 | a completion never removes the audio file |
| Legacy.VariantsAgree | main.swift:9-10 | on default preferences, with the Homebrew tool and the old audio path, the newer variant attempts the same command and ends the same way |

## Left out

- The AppKit UI (status item, menu, settings window, `NSOpenPanel` browse,
  permission alerts) is left out. The status line and the menu-bar icon are
  plain fields.
- `browseModel` is left out because it is UI plumbing. It stores the chosen
  path without validation and then refreshes the status.
- `sortedCodes` is left out because it only orders the settings pop-up.
- Launch at login, hotkey registration, microphone and accessibility
  permission checks, and `NSLog` are left out because they are OS
  integration with no effect on the pipeline.
- Dispatch queues and the 0.1 s `asyncAfter` are left out. A completion is
  one sequential event that applies the whole result at once. The
  preferences are read when the completion is applied.
- The audio format and AVFoundation capture are left out because they are
  out of reach. Recorder creation and the start of `record()` are boolean
  oracles, and a recording is only a flag on the audio file.
- `Process`, `Pipe` and UTF-8 decoding are left out because they are
  foreign calls. The run is an oracle. Output that is not valid UTF-8
  arrives as the empty string, as `?? ""` makes it.
- The `standardizingPath`, `fileExists` and `isExecutableFile` calls are
  uninterpreted, and the filesystem is fixed during a step.
- The pid-based audio path is a parameter of the host.
- `NSPasteboard` and `CGEvent` are left out because they are OS side
  effects. The clipboard is one optional string, and the keystroke is a
  flag in the effects.
- Text.Lowercase: maps only A-Z and the Kelvin sign. Those are the only
  scalars whose full lower case is a single ASCII letter. So membership in
  the all-ASCII language table and the ".bin" suffix test are unaffected.
  Other scalars are kept as they are.
- ModelPath.Validate: the ".bin" suffix test compares the last four scalars,
  where Swift's `hasSuffix(".bin")` compares grapheme clusters. The two
  differ when the '.' joins a cluster with the scalar before it, as after a
  prepended mark such as U+0600; Swift then refuses the path and the model
  does not. The ".." test searches scalars too, where Swift's
  `contains("..")` matches whole characters: a second '.' followed by a
  combining mark such as U+0301 is refused by the model and passed by Swift.
- Capture.Start: a `record()` that does not start is taken to write no file
  at the audio path. Whether AVFoundation leaves an empty file behind in
  that case is outside the model.
- Caption.CaptionText: compares scalars, where Swift's `hasPrefix("[")`
  and `range(of: "]")` (in both variants) compare grapheme clusters. The two
  differ for a line whose '[' or ']' is followed by a combining mark: Swift
  does not see that bracket, the model does. whisper-cli does not print
  such lines.
- The quit handler's file removal (`applicationWillTerminate`) is only an
  event that clears the audio-file flag. No property is stated about it.

=== FILE: caption.dfy ===
/**
 The parser that turns whisper-cli's standard output into one transcript.
 Both variants of the app run the same loop: split the output at line feeds,
 keep the lines that start with '[' and contain a ']', take what follows the
 first ']', trim it, append it and a space, and trim the whole at the end.
 */
module Caption {
  import opened Options
  import opened Text

  /** `k` is where the first `c` of `s` stands. */
  predicate IsFirst(s: string, c: char, k: int) {
    0 <= k < |s| && s[k] == c && c !in s[..k]
  }

  /** Position of the first `c` in `s`. */
  function IndexOf(s: string, c: char): (k: nat)
    requires c in s
    ensures IsFirst(s, c, k)
  {
    if s[0] == c then 0 else 1 + IndexOf(s[1..], c)
  }

  /** A caption line: it starts with '[' and has a ']' somewhere. */
  predicate IsCaptionLine(line: string) {
    |line| > 0 && line[0] == '[' && ']' in line
  }

  /** What one line contributes: nothing unless it is a caption line, and
      then the trimmed text after its first ']' (CaptionTextAfterFirstBracket). */
  function CaptionText(line: string): (r: Option<string>)
    ensures r.Some? <==> IsCaptionLine(line)
    ensures r.Some? ==> IsTrimmed(r.value)
  {
    if IsCaptionLine(line) then
      var k := IndexOf(line, ']');
      Some(Trim(line[k + 1..]))
    else None
  }

  /** A caption line contributes exactly the trimmed text that follows its
      first ']', and the ']' cannot be its opening character. */
  lemma {:induction false} CaptionTextAfterFirstBracket(line: string, k: int)
    requires IsCaptionLine(line) && IsFirst(line, ']', k)
    ensures 0 < k
    ensures CaptionText(line) == Some(Trim(line[k + 1..]))
  {
    FirstIsUnique(line, ']', k, IndexOf(line, ']'));
  }

  /** There is only one first occurrence. */
  lemma FirstIsUnique(s: string, c: char, a: int, b: int)
    requires IsFirst(s, c, a) && IsFirst(s, c, b)
    ensures a == b
  {
    assert forall j :: 0 <= j < a ==> s[..a][j] == s[j];
    assert forall j :: 0 <= j < b ==> s[..b][j] == s[j];
  }

  /** The results `f` gives for the lines, in line order, the absent ones
      dropped. */
  function Collect(f: string -> Option<string>, lines: seq<string>): (texts: seq<string>)
    ensures |texts| <= |lines|
  {
    if lines == [] then []
    else
      var init := lines[..|lines| - 1];
      match f(lines[|lines| - 1])
      case Some(t) => Collect(f, init) + [t]
      case None => Collect(f, init)
  }

  /** What one more line at the end adds. */
  lemma {:induction false} CollectSnoc(f: string -> Option<string>, init: seq<string>, line: string)
    ensures Collect(f, init + [line]) ==
              match f(line)
              case Some(t) => Collect(f, init) + [t]
              case None => Collect(f, init)
  {
    var lines := init + [line];
    assert lines[..|lines| - 1] == init;
    assert lines[|lines| - 1] == line;
  }

  lemma {:induction false} CollectAppend(f: string -> Option<string>, a: seq<string>, b: seq<string>)
    ensures Collect(f, a + b) == Collect(f, a) + Collect(f, b)
  {
    if b == [] {
      assert a + b == a;
    } else {
      var b' := b[..|b| - 1];
      var x := b[|b| - 1];
      assert b == b' + [x];
      assert a + b == (a + b') + [x];
      CollectAppend(f, a, b');
      CollectSnoc(f, a + b', x);
      CollectSnoc(f, b', x);
      match f(x)
      case Some(t) =>
        assert Collect(f, a) + (Collect(f, b') + [t]) == (Collect(f, a) + Collect(f, b')) + [t];
      case None =>
    }
  }

  lemma {:induction false} CollectEmptyIff(f: string -> Option<string>, lines: seq<string>)
    ensures Collect(f, lines) == [] <==> forall i :: 0 <= i < |lines| ==> f(lines[i]).None?
  {
    if lines != [] {
      var init := lines[..|lines| - 1];
      CollectEmptyIff(f, init);
      assert forall i :: 0 <= i < |init| ==> init[i] == lines[i];
    }
  }

  /** Every collected text is a result `f` gives. */
  lemma {:induction false} CollectAll(f: string -> Option<string>, p: string -> bool, lines: seq<string>)
    requires forall line :: f(line).Some? ==> p(f(line).value)
    ensures forall i :: 0 <= i < |Collect(f, lines)| ==> p(Collect(f, lines)[i])
  {
    if lines != [] {
      var init := lines[..|lines| - 1];
      CollectAll(f, p, init);
    }
  }

  /** The contributions of all lines, in line order. */
  function Captions(lines: seq<string>): (texts: seq<string>)
    ensures |texts| <= |lines|
  {
    Collect(CaptionText, lines)
  }

  /** Every contribution is trimmed. */
  lemma CaptionsTrimmed(lines: seq<string>)
    ensures forall i :: 0 <= i < |Captions(lines)| ==> IsTrimmed(Captions(lines)[i])
  {
    CollectAll(CaptionText, IsTrimmed, lines);
  }

  /** Some line contributes exactly when some line is a caption line. */
  lemma CaptionsEmptyIff(lines: seq<string>)
    ensures Captions(lines) == [] <==> forall i :: 0 <= i < |lines| ==> !IsCaptionLine(lines[i])
  {
    CollectEmptyIff(CaptionText, lines);
  }

  /** Output read in two pieces contributes the first piece's captions, then
      the second's: contributions keep the order of the lines. */
  lemma CaptionsAppend(a: seq<string>, b: seq<string>)
    ensures Captions(a + b) == Captions(a) + Captions(b)
  {
    CollectAppend(CaptionText, a, b);
  }

  /** A line that contributes nothing can be dropped without changing anything. */
  lemma NoiseIgnored(a: seq<string>, line: string, b: seq<string>)
    requires !IsCaptionLine(line)
    ensures Captions(a + [line] + b) == Captions(a + b)
  {
    CollectAppend(CaptionText, a + [line], b);
    CollectSnoc(CaptionText, a, line);
    CollectAppend(CaptionText, a, b);
  }

  /** A single caption line contributes exactly its own text, in its place. */
  lemma OneCaption(a: seq<string>, line: string, b: seq<string>)
    requires IsCaptionLine(line)
    ensures Captions(a + [line] + b) == Captions(a) + [CaptionText(line).value] + Captions(b)
  {
    CollectAppend(CaptionText, a + [line], b);
    CollectSnoc(CaptionText, a, line);
  }

  /** The accumulator after the loop: each contribution followed by a space. */
  function Accumulate(texts: seq<string>): (acc: string)
    ensures |acc| >= |texts|
  {
    if texts == [] then [] else Accumulate(texts[..|texts| - 1]) + texts[|texts| - 1] + " "
  }

  /** The accumulator is blank exactly when every contribution is. */
  lemma {:induction false} AccumulateAllSpace(texts: seq<string>)
    ensures AllSpace(Accumulate(texts)) <==> forall i :: 0 <= i < |texts| ==> AllSpace(texts[i])
  {
    if texts != [] {
      var init := texts[..|texts| - 1];
      var last := texts[|texts| - 1];
      AccumulateAllSpace(init);
      var a := Accumulate(init);
      var acc := a + last + " ";
      assert forall i :: 0 <= i < |init| ==> init[i] == texts[i];
      assert forall i :: 0 <= i < |last| ==> acc[|a| + i] == last[i];
      assert forall i :: 0 <= i < |a| ==> acc[i] == a[i];
      assert acc[|acc| - 1] == ' ';
    }
  }

  /** The transcript of one run of the tool. */
  function Transcript(output: string): (text: string)
    ensures IsTrimmed(text)
  {
    Trim(Accumulate(Captions(Split(output, '\n'))))
  }

  /** Every contribution is empty. */
  predicate AllEmpty(texts: seq<string>) {
    forall i :: 0 <= i < |texts| ==> texts[i] == []
  }

  /** The transcript is empty exactly when every contribution is empty
      (which includes the case of no caption line at all). */
  lemma {:induction false} TranscriptEmptyIff(output: string)
    ensures Transcript(output) == [] <==> AllEmpty(Captions(Split(output, '\n')))
  {
    var texts := Captions(Split(output, '\n'));
    CaptionsTrimmed(Split(output, '\n'));
    BlankIffAllEmpty(texts);
    assert Transcript(output) == Trim(Accumulate(texts));
  }

  lemma {:induction false} BlankIffAllEmpty(texts: seq<string>)
    requires forall i :: 0 <= i < |texts| ==> IsTrimmed(texts[i])
    ensures Trim(Accumulate(texts)) == [] <==> AllEmpty(texts)
  {
    TrimEmptyIff(Accumulate(texts));
    AccumulateAllSpace(texts);
    forall i | 0 <= i < |texts|
      ensures AllSpace(texts[i]) <==> texts[i] == []
    {
      if texts[i] != [] {
        assert !IsSpace(texts[i][0]);
      }
    }
  }

  /** The captions separated by single spaces. */
  function JoinWithSpaces(texts: seq<string>): string {
    if texts == [] then []
    else if |texts| == 1 then texts[0]
    else JoinWithSpaces(texts[..|texts| - 1]) + " " + texts[|texts| - 1]
  }

  lemma {:induction false} AccumulateIsJoin(texts: seq<string>)
    requires texts != []
    ensures Accumulate(texts) == JoinWithSpaces(texts) + " "
  {
    if |texts| > 1 {
      var init := texts[..|texts| - 1];
      AccumulateIsJoin(init);
    } else {
      assert texts[..0] == [];
    }
  }

  lemma {:induction false} JoinIsTrimmed(texts: seq<string>)
    requires forall i :: 0 <= i < |texts| ==> texts[i] != [] && IsTrimmed(texts[i])
    ensures IsTrimmed(JoinWithSpaces(texts))
    ensures texts != [] ==> JoinWithSpaces(texts) != []
  {
    if |texts| > 1 {
      var init := texts[..|texts| - 1];
      JoinIsTrimmed(init);
      var j := JoinWithSpaces(init);
      var last := texts[|texts| - 1];
      assert (j + " " + last)[0] == j[0];
      assert (j + " " + last)[|j + " " + last| - 1] == last[|last| - 1];
    }
  }

  /** When no caption line is blank after trimming, the transcript is the
      captions in line order separated by single spaces. */
  lemma {:induction false} TranscriptJoinsCaptions(output: string)
    ensures NoneBlank(Captions(Split(output, '\n'))) ==>
              Transcript(output) == JoinWithSpaces(Captions(Split(output, '\n')))
  {
    var texts := Captions(Split(output, '\n'));
    if NoneBlank(texts) {
      CaptionsTrimmed(Split(output, '\n'));
      NoBlankJoins(texts);
    }
  }

  predicate NoneBlank(texts: seq<string>) {
    forall i :: 0 <= i < |texts| ==> texts[i] != []
  }

  lemma {:induction false} NoBlankJoins(texts: seq<string>)
    requires forall i :: 0 <= i < |texts| ==> texts[i] != [] && IsTrimmed(texts[i])
    ensures Trim(Accumulate(texts)) == JoinWithSpaces(texts)
  {
    if texts != [] {
      AccumulateIsJoin(texts);
      JoinIsTrimmed(texts);
      TrimIsInner([], JoinWithSpaces(texts), " ");
      assert [] + JoinWithSpaces(texts) + " " == Accumulate(texts);
    }
  }

  /** A timestamped caption line followed by a line that opens a bracket
      and never closes it: only the first line counts, and the transcript is
      its text without the padding. */
  lemma {:induction false} UnclosedBracketIgnored(stamp: string, pad: string, words: string, rest: string)
    requires ']' !in stamp && '\n' !in stamp
    requires AllSpace(pad)
    requires IsTrimmed(words) && '\n' !in words
    requires ']' !in rest && '\n' !in rest
    ensures Transcript("[" + stamp + "]" + pad + words + "\n" + "[" + rest) == words
  {
    var first := "[" + stamp + "]" + pad + words;
    var second := "[" + rest;
    CaptionLineText(stamp, pad, words);
    assert '\n' !in second;
    TwoLines(first, second);
    assert "[" + stamp + "]" + pad + words + "\n" + "[" + rest == first + "\n" + second;
    assert !IsCaptionLine(second);
    CaptionThenNoise(first, second);
    SingleTextTranscript(words);
  }

  /** A single caption line ending the output gives its text. */
  lemma {:induction false} OneLineTranscript(stamp: string, pad: string, words: string)
    requires ']' !in stamp && '\n' !in stamp
    requires AllSpace(pad)
    requires IsTrimmed(words) && '\n' !in words
    ensures Transcript("[" + stamp + "]" + pad + words + "\n") == words
  {
    var first := "[" + stamp + "]" + pad + words;
    CaptionLineText(stamp, pad, words);
    TwoLines(first, []);
    assert "[" + stamp + "]" + pad + words + "\n" == first + "\n" + [];
    assert !IsCaptionLine([]);
    CaptionThenNoise(first, []);
    SingleTextTranscript(words);
  }

  /** Two lines joined by a line feed split back into those two lines. */
  lemma {:induction false} TwoLines(first: string, second: string)
    requires '\n' !in first && '\n' !in second
    ensures Split(first + "\n" + second, '\n') == [first, second]
  {
    SplitFirstLine(first, second, '\n');
    SplitNoSeparator(second, '\n');
    assert first + "\n" + second == first + ['\n'] + second;
  }

  /** A caption line followed by a non-caption line contributes one text. */
  lemma {:induction false} CaptionThenNoise(first: string, second: string)
    requires CaptionText(first).Some? && !IsCaptionLine(second)
    ensures Captions([first, second]) == [CaptionText(first).value]
  {
    CollectSnoc(CaptionText, [], first);
    assert [] + [first] == [first];
    CollectSnoc(CaptionText, [first], second);
    assert [first] + [second] == [first, second];
  }

  /** `[stamp]` followed by padding and words is a caption line whose
      contribution is the words. */
  lemma {:induction false} CaptionLineText(stamp: string, pad: string, words: string)
    requires ']' !in stamp && '\n' !in stamp
    requires AllSpace(pad)
    requires IsTrimmed(words) && '\n' !in words
    ensures var line := "[" + stamp + "]" + pad + words;
            '\n' !in line && CaptionText(line) == Some(words)
  {
    CaptionLineWords(stamp, pad, words);
    NoLineFeedInSpaces(pad);
    NoLineFeedInJoin("[" + stamp + "]", pad, words);
  }

  lemma {:induction false} CaptionLineWords(stamp: string, pad: string, words: string)
    requires ']' !in stamp
    requires AllSpace(pad)
    requires IsTrimmed(words)
    ensures CaptionText("[" + stamp + "]" + pad + words) == Some(words)
  {
    var tail := pad + words;
    assert "[" + stamp + "]" + pad + words == "[" + stamp + "]" + tail;
    BracketLine(stamp, tail);
    CaptionTextAfterFirstBracket("[" + stamp + "]" + tail, |stamp| + 1);
    TrimIsInner(pad, words, []);
    assert pad + words + [] == tail;
  }

  lemma NoLineFeedInJoin(a: string, b: string, c: string)
    requires '\n' !in a && '\n' !in b && '\n' !in c
    ensures '\n' !in a + b + c
  {
    var ab := a + b;
    assert forall i :: 0 <= i < |ab| ==> ab[i] == (if i < |a| then a[i] else b[i - |a|]);
    var abc := ab + c;
    assert forall i :: 0 <= i < |abc| ==> abc[i] == (if i < |ab| then ab[i] else c[i - |ab|]);
  }

  /** Where the first ']' of `[stamp]tail` is, when the stamp has none. */
  lemma {:induction false} BracketLine(stamp: string, tail: string)
    requires ']' !in stamp
    ensures var line := "[" + stamp + "]" + tail;
            IsCaptionLine(line) && IsFirst(line, ']', |stamp| + 1) && line[|stamp| + 2..] == tail
  {
    var head := "[" + stamp;
    var line := head + "]" + tail;
    assert line[..|head|] == head;
    assert line[|head|] == ']';
    assert line[|head| + 1..] == tail;
  }

  lemma NoLineFeedInSpaces(pad: string)
    requires AllSpace(pad)
    ensures '\n' !in pad
  {
    assert forall i :: 0 <= i < |pad| ==> pad[i] != '\n' by {
      forall i | 0 <= i < |pad|
        ensures pad[i] != '\n'
      {
        assert IsSpace(pad[i]);
      }
    }
  }

  /** One contribution, trimmed already, is the whole transcript. */
  lemma {:induction false} SingleTextTranscript(words: string)
    requires IsTrimmed(words)
    ensures Trim(Accumulate([words])) == words
  {
    assert [words][..0] == [];
    TrimIsInner([], words, " ");
    assert [] + words + " " == Accumulate([words]);
  }

  /** One timestamped line as whisper-cli prints it gives its words. */
  lemma TimestampedLineExample(output: string, stamp: string)
    requires stamp == "00:00:00.000 --> 00:00:01.000"
    requires output == "[" + stamp + "]" + "  " + "test" + "\n"
    ensures Transcript(output) == "test"
  {
    assert forall i :: 0 <= i < |stamp| ==> stamp[i] != ']' && stamp[i] != '\n';
    var pad := "  ";
    assert AllSpace(pad);
    OneLineTranscript(stamp, pad, "test");
  }

  /** Output with nothing but blank lines gives the empty transcript. */
  lemma {:induction false} BlankOutputExample(output: string)
    requires output == "\n\n"
    ensures Transcript(output) == []
  {
    var empty: string := [];
    var tail := empty + ['\n'] + empty;
    assert output == empty + ['\n'] + tail;
    SplitFirstLine(empty, tail, '\n');
    SplitFirstLine(empty, empty, '\n');
    SplitNoSeparator(empty, '\n');
    var lines := Split(output, '\n');
    assert lines == [empty, empty, empty];
    assert forall i :: 0 <= i < |lines| ==> !IsCaptionLine(lines[i]);
    CaptionsEmptyIff(lines);
    TranscriptEmptyIff(output);
  }

  /** What one more line adds to the accumulator. */
  lemma {:induction false} AccumulateStep(lines: seq<string>, i: nat)
    requires i < |lines|
    ensures var before := Accumulate(Captions(lines[..i]));
            Accumulate(Captions(lines[..i + 1])) ==
              if IsCaptionLine(lines[i]) then before + CaptionText(lines[i]).value + " " else before
  {
    assert lines[..i + 1] == lines[..i] + [lines[i]];
    CollectSnoc(CaptionText, lines[..i], lines[i]);
    var before := Captions(lines[..i]);
    if IsCaptionLine(lines[i]) {
      var t := CaptionText(lines[i]).value;
      assert (before + [t])[..|before|] == before;
    }
  }

  /** The loop of `transcribe()`, statement for statement. */
  method ParseOutput(output: string) returns (result: string)
    ensures result == Transcript(output)
    ensures IsTrimmed(result)
  {
    var lines := Split(output, '\n');
    result := "";
    for i := 0 to |lines|
      invariant result == Accumulate(Captions(lines[..i]))
    {
      var line := lines[i];
      AccumulateStep(lines, i);
      if |line| > 0 && line[0] == '[' {
        if ']' in line {
          var k := IndexOf(line, ']');
          var text := Trim(line[k + 1..]);
          CaptionTextAfterFirstBracket(line, k);
          result := result + text + " ";
        } else {
          assert !IsCaptionLine(line);
        }
      } else {
        assert !IsCaptionLine(line);
      }
    }
    assert lines[..|lines|] == lines;
    result := Trim(result);
  }
}

=== FILE: capture.dfy ===
/**
 The recording flag logic both variants share: `toggleRecording` dispatches
 on `isRecording`; `startRecording` removes whatever file is at the audio
 path, tries to create the recorder, and then calls `record()`;
 `stopRecordingAndTranscribe` stops the recorder and clears the flag before
 anything else. Whether the recorder can be created and whether `record()`
 actually starts are oracles passed in. The app never reads the result of
 `record()`: it sets the flag as soon as the recorder exists.
 */
module Capture {

  /** The flag, whether the recorder is capturing, and whether a file is at
      the audio path. */
  datatype Recorder = Recorder(isRecording: bool, capturing: bool, audioFile: bool)

  /** Launch state: not recording, no recorder, no file. */
  const Idle := Recorder(false, false, false)

  /** Nothing is captured unless the flag is set. The converse is not kept:
      a `record()` that fails leaves the flag set with nothing captured. */
  predicate Consistent(r: Recorder) {
    r.capturing ==> r.isRecording
  }

  /** `startRecording`: the old file goes first. If the recorder could be
      created the flag is set, whether or not `record()` started capturing;
      a file is written only when it did. On a failed creation the old file
      is gone and nothing else changes. */
  function Start(r: Recorder, created: bool, started: bool): (s: Recorder)
    ensures s.isRecording == (created || r.isRecording)
    ensures s.capturing <==> (created && started) || (!created && r.capturing)
    ensures s.audioFile == (created && started)
    ensures !created ==> s == r.(audioFile := false)
  {
    var removed := r.(audioFile := false);
    if created then removed.(isRecording := true, capturing := started, audioFile := started)
    else removed
  }

  /** `stopRecordingAndTranscribe`, up to the dispatch: the recorder stops,
      the flag is cleared unconditionally, the recorded file stays. */
  function Stop(r: Recorder): (s: Recorder)
    ensures !s.isRecording && !s.capturing
    ensures s.audioFile == r.audioFile
  {
    r.(isRecording := false, capturing := false)
  }

  /** `toggleRecording`. */
  function Toggle(r: Recorder, created: bool, started: bool): (s: Recorder)
    ensures r.isRecording ==> s == Stop(r)
    ensures !r.isRecording ==> s == Start(r, created, started)
  {
    if r.isRecording then Stop(r) else Start(r, created, started)
  }

  /** Toggling while recording always ends the recording; toggling while not
      recording sets the flag exactly when the recorder could be created,
      whatever `record()` did. */
  lemma ToggleFlips(r: Recorder, created: bool, started: bool)
    ensures r.isRecording ==> !Toggle(r, created, started).isRecording
    ensures !r.isRecording ==> (Toggle(r, created, started).isRecording <==> created)
  {
  }

  /** A failed start leaves no file behind, whatever was there before: the
      old file is removed before the recorder is tried. */
  lemma FailedStartLeavesNoFile(r: Recorder, started: bool)
    requires !r.isRecording
    ensures Toggle(r, false, started) == r.(audioFile := false)
  {
  }

  /** A `record()` that does not start goes unnoticed: the flag says
      recording while nothing is captured and no file is written. */
  lemma UncheckedRecord(r: Recorder)
    requires !r.isRecording
    ensures var s := Toggle(r, true, false);
            s.isRecording && !s.capturing && !s.audioFile
  {
  }

  /** Toggling keeps the recorder from capturing without the flag. */
  lemma ToggleKeepsConsistent(r: Recorder, created: bool, started: bool)
    requires Consistent(r)
    ensures Consistent(Toggle(r, created, started))
  {
  }

  /** Two toggles with a recorder that can be created and starts come back to
      a stopped recorder with a fresh file. */
  lemma StartThenStop(r: Recorder)
    requires !r.isRecording
    ensures Toggle(Toggle(r, true, true), true, true) == Recorder(false, false, true)
  {
  }
}

=== FILE: dictation.dfy ===
/**
 The macOS app as a state machine. The hotkey (or the menu item) toggles
 recording; stopping dispatches a transcription that completes later as its
 own event; the settings window edits the preferences. Dispatch queues are
 flattened into this sequence of events, and every UI or OS side effect of a
 step is returned as a value: the sound played, the process whose launch
 was attempted, and whether the Cmd+V keystroke is sent.
 */
module Dictation {
  import opened Options
  import opened Text
  import opened Environment
  import Settings
  import ModelPath
  import Transcription
  import Capture
  import Caption

  /** The menu-bar title: microphone, red dot while recording, hourglass
      while transcribing. */
  datatype Icon = Microphone | RedDot | Hourglass

  /** The four system sounds the app plays. */
  datatype Sound = Tink | Basso | Pop | Glass

  datatype App = App(
    recorder: Capture.Recorder,
    pending: nat,                  // transcriptions dispatched, not yet completed
    prefs: Settings.Preferences,
    status: string,                // the "Status: ..." menu line, without its prefix
    icon: Icon,
    clipboard: Option<string>)     // the string on the general pasteboard

  datatype Event =
    | Hotkey(recorderCreated: bool,          // toggleRecording; whether AVAudioRecorder could be created
             recordStarted: bool)            // and whether its record() started capturing
    | Completed(tool: Transcription.ToolRun) // the oldest dispatched transcribe() finishes
    | ModelPathEntered(path: string)         // modelPathChanged
    | LanguagePicked(code: string)           // languageChanged
    | SoundsSwitched(on: bool)               // playSoundsChanged
    | Quit                                   // applicationWillTerminate

  /** The side effects of one step: the sound, the process whose launch was
      attempted (it may have failed to start), and the keystroke. */
  datatype Effects = Effects(sound: Option<Sound>, attempted: Option<Transcription.Invocation>, keystroke: bool)

  datatype Transition = Transition(app: App, effects: Effects)

  const RecordingStatus := "Recording..."
  const TranscribingStatus := "Transcribing..."
  const ErrorStatus := "Error"
  const InvalidLanguageStatus := ModelPath.Warning + "Invalid language"
  const CliMissingStatus := ModelPath.Warning + "whisper-cli not found"

  /** A sound, played only when sound feedback is on. */
  function Chime(prefs: Settings.Preferences, sound: Sound): (s: Option<Sound>)
    ensures s.Some? <==> Settings.PlaySounds(prefs)
    ensures s.Some? ==> s.value == sound
  {
    if Settings.PlaySounds(prefs) then Some(sound) else None
  }

  /** A step whose only effect is a sound (when sounds are on). */
  function SoundOnly(prefs: Settings.Preferences, sound: Sound): Effects {
    Effects(Chime(prefs, sound), None, false)
  }

  /** `applicationDidFinishLaunching`: idle, with the status of the stored
      model path. */
  function Launch(prefs: Settings.Preferences, host: Host, clipboard: Option<string>): (app: App)
    ensures !app.recorder.isRecording && app.pending == 0 && app.icon == Microphone
    ensures app.status == ModelPath.Ready <==> ModelPath.Validate(Settings.ModelPath(prefs, host.home), host.fs).valid
  {
    App(Capture.Idle, 0, prefs, ModelPath.ModelStatus(prefs, host), Microphone, clipboard)
  }

  /** `toggleRecording`. Stopping clears the flag at once, shows the
      hourglass and dispatches the transcription; nothing stops a new
      recording from starting while it runs. A start shows the red dot as
      soon as the recorder exists, whether or not `record()` started. A failed
      start only plays Basso: icon and status stay as they were. */
  function ToggleRecording(app: App, created: bool, started: bool): (t: Transition)
    ensures t.app.recorder == Capture.Toggle(app.recorder, created, started)
    ensures t.app.pending == if app.recorder.isRecording then app.pending + 1 else app.pending
    ensures t.app.prefs == app.prefs && t.app.clipboard == app.clipboard
    ensures t.effects.attempted.None? && !t.effects.keystroke
    ensures app.recorder.isRecording ==>
              t.app.icon == Hourglass && t.app.status == TranscribingStatus && t.effects.sound == Chime(app.prefs, Pop)
    ensures !app.recorder.isRecording && created ==>
              t.app.icon == RedDot && t.app.status == RecordingStatus && t.effects.sound == Chime(app.prefs, Tink)
    ensures !app.recorder.isRecording && !created ==>
              t.app.icon == app.icon && t.app.status == app.status && t.effects.sound == Chime(app.prefs, Basso)
  {
    var rec := Capture.Toggle(app.recorder, created, started);
    if app.recorder.isRecording then
      Transition(app.(recorder := rec, pending := app.pending + 1, icon := Hourglass, status := TranscribingStatus),
                 SoundOnly(app.prefs, Pop))
    else if created then
      Transition(app.(recorder := rec, icon := RedDot, status := RecordingStatus), SoundOnly(app.prefs, Tink))
    else
      Transition(app.(recorder := rec), SoundOnly(app.prefs, Basso))
  }

  /** The main-thread ending of one transcription: the icon goes back to the
      microphone and the status line and sound say how it went; a recognized
      text replaces the clipboard (nothing saves or restores what was there)
      and is pasted with Cmd+V; otherwise the clipboard is not touched. Glass
      follows a paste and Basso every other ending. The audio file is removed
      when a launch was attempted, whatever is recording into it now. */
  function Complete(app: App, host: Host, tool: Transcription.ToolRun): (t: Transition)
    requires app.pending > 0
    ensures t.app.pending == app.pending - 1
    ensures t.app.prefs == app.prefs
    ensures t.app.icon == Microphone
    ensures t.app.recorder.isRecording == app.recorder.isRecording
    ensures t.app.recorder.capturing == app.recorder.capturing
    ensures t.app.recorder.audioFile == (app.recorder.audioFile && !Transcription.Transcribe(app.prefs, host, tool).removesAudio)
    ensures t.effects.attempted == Transcription.Transcribe(app.prefs, host, tool).attempted
    ensures t.effects.keystroke <==> Transcription.Transcribe(app.prefs, host, tool).outcome.Recognized?
    ensures t.effects.keystroke ==> t.app.clipboard == Some(Transcription.Transcribe(app.prefs, host, tool).outcome.text)
    ensures !t.effects.keystroke ==> t.app.clipboard == app.clipboard
    ensures t.effects.sound == Chime(app.prefs, if t.effects.keystroke then Glass else Basso)
  {
    var run := Transcription.Transcribe(app.prefs, host, tool);
    var rec := if run.removesAudio then app.recorder.(audioFile := false) else app.recorder;
    var base := app.(recorder := rec, pending := app.pending - 1, icon := Microphone);
    match run.outcome
    case ModelRejected(reason) =>
      Transition(base.(status := ModelPath.Warning + reason), SoundOnly(app.prefs, Basso))
    case LanguageRejected =>
      Transition(base.(status := InvalidLanguageStatus), SoundOnly(app.prefs, Basso))
    case CliMissing =>
      Transition(base.(status := CliMissingStatus), SoundOnly(app.prefs, Basso))
    case RunFailed =>
      Transition(base.(status := ErrorStatus), Effects(Chime(app.prefs, Basso), run.attempted, false))
    case NoSpeech =>
      Transition(base.(status := ModelPath.Ready), Effects(Chime(app.prefs, Basso), run.attempted, false))
    case Recognized(text) =>
      Transition(base.(status := ModelPath.Ready, clipboard := Some(text)),
                 Effects(Chime(app.prefs, Glass), run.attempted, true))
  }

  /** One event. A completion with nothing dispatched cannot happen in the
      app and changes nothing here. */
  function Step(app: App, host: Host, event: Event): (t: Transition)
    ensures event.Completed? && app.pending == 0 ==> t.app == app
    ensures !event.Completed? ==> t.effects.attempted.None? && !t.effects.keystroke
  {
    match event
    case Hotkey(created, started) => ToggleRecording(app, created, started)
    case Completed(tool) =>
      if app.pending == 0 then Transition(app, Effects(None, None, false))
      else Complete(app, host, tool)
    case ModelPathEntered(path) =>
      var edit := ModelPath.ModelPathChanged(app.prefs, path, host);
      Transition(app.(prefs := edit.prefs, status := edit.status), Effects(None, None, false))
    case LanguagePicked(code) =>
      Transition(app.(prefs := Settings.SetLanguage(app.prefs, code)), Effects(None, None, false))
    case SoundsSwitched(on) =>
      Transition(app.(prefs := Settings.SetPlaySounds(app.prefs, on)), Effects(None, None, false))
    case Quit =>
      Transition(app.(recorder := app.recorder.(audioFile := false)), Effects(None, None, false))
  }

  /** The state after a sequence of events. */
  function Replay(app: App, host: Host, events: seq<Event>): App
    decreases |events|
  {
    if events == [] then app else Replay(Step(app, host, events[0]).app, host, events[1..])
  }

  /** What the app keeps true: nothing is captured without the flag, and the
      red dot is only shown while the flag is set. */
  predicate Consistent(app: App) {
    Capture.Consistent(app.recorder) && (app.icon == RedDot ==> app.recorder.isRecording)
  }

  lemma StepKeepsConsistent(app: App, host: Host, event: Event)
    requires Consistent(app)
    ensures Consistent(Step(app, host, event).app)
  {
  }

  /** Every reachable state is consistent. */
  lemma {:induction false} ReplayKeepsConsistent(app: App, host: Host, events: seq<Event>)
    requires Consistent(app)
    ensures Consistent(Replay(app, host, events))
    decreases |events|
  {
    if events != [] {
      StepKeepsConsistent(app, host, events[0]);
      ReplayKeepsConsistent(Step(app, host, events[0]).app, host, events[1..]);
    }
  }

  /** Sound feedback switched off silences every step. */
  lemma MutedIsSilent(app: App, host: Host, event: Event)
    requires !Settings.PlaySounds(app.prefs)
    ensures Step(app, host, event).effects.sound.None?
  {
  }

  /** There is no busy guard: right after a recording is stopped, with its
      transcription still pending, the hotkey starts a new recording. */
  lemma NoBusyGuard(app: App, host: Host, created: bool, started: bool)
    requires app.recorder.isRecording
    ensures var stopped := Step(app, host, Hotkey(created, started)).app;
            && stopped.pending == app.pending + 1
            && Step(stopped, host, Hotkey(true, true)).app.recorder.isRecording
            && Step(stopped, host, Hotkey(true, true)).app.pending == app.pending + 1
  {
  }

  /** The result of `record()` is not read: when the recorder is created but
      does not start, the red dot, "Recording..." and Tink appear although
      nothing is captured. */
  lemma UncheckedRecordShowsRecording(app: App, host: Host)
    requires !app.recorder.isRecording
    ensures var t := Step(app, host, Hotkey(true, false));
            && t.app.icon == RedDot && t.app.status == RecordingStatus
            && t.app.recorder.isRecording && !t.app.recorder.capturing
            && t.effects.sound == Chime(app.prefs, Tink)
  {
  }

  /** A transcription that completes while a newer recording runs removes
      the file that recording is writing, and puts the microphone icon and a
      non-recording status back although capture goes on. */
  lemma CompletionDuringRecording(app: App, host: Host, tool: Transcription.ToolRun)
    requires app.recorder.isRecording && app.recorder.capturing && app.pending > 0
    requires Transcription.GuardsPass(app.prefs, host)
    ensures var next := Step(app, host, Completed(tool)).app;
            && next.recorder.capturing && !next.recorder.audioFile
            && next.icon == Microphone
            && next.status in {ModelPath.Ready, ErrorStatus}
  {
    var run := Transcription.Transcribe(app.prefs, host, tool);
    assert run.outcome == Transcription.Interpret(tool);
    assert Step(app, host, Completed(tool)) == Complete(app, host, tool);
  }

  /** A recognized transcription leaves its text, and only its text, on the
      clipboard: what was there before is lost. */
  lemma PasteReplacesClipboard(app: App, host: Host, tool: Transcription.ToolRun)
    requires app.pending > 0
    ensures var t := Step(app, host, Completed(tool));
            t.effects.keystroke ==>
              && tool.Finished?
              && t.app.clipboard == Some(Caption.Transcript(tool.stdout))
              && Caption.Transcript(tool.stdout) != []
  {
    Transcription.RecognizedIsTranscript(app.prefs, host, tool);
  }

  /** The clipboard before a paste has no influence on anything after it. */
  lemma ClipboardNotRestored(app: App, host: Host, tool: Transcription.ToolRun, other: Option<string>)
    requires app.pending > 0
    ensures Step(app, host, Completed(tool)).effects.keystroke ==>
              Step(app.(clipboard := other), host, Completed(tool)) == Step(app, host, Completed(tool))
  {
    var app' := app.(clipboard := other);
    CompleteIgnoresClipboard(app, host, tool, other);
    assert Step(app, host, Completed(tool)) == Complete(app, host, tool);
    assert Step(app', host, Completed(tool)) == Complete(app', host, tool);
  }

  /** A completion that recognizes text ends the same whatever was on the
      clipboard. */
  lemma CompleteIgnoresClipboard(app: App, host: Host, tool: Transcription.ToolRun, other: Option<string>)
    requires app.pending > 0
    ensures Transcription.Transcribe(app.prefs, host, tool).outcome.Recognized? ==>
              Complete(app.(clipboard := other), host, tool) == Complete(app, host, tool)
  {
  }

  /** The status line after a completion names what went wrong, in the
      order the checks are made. */
  lemma CompletionStatus(app: App, host: Host, tool: Transcription.ToolRun)
    requires app.pending > 0
    ensures var run := Transcription.Transcribe(app.prefs, host, tool);
            var status := Step(app, host, Completed(tool)).app.status;
            && (run.outcome.ModelRejected? ==> status == ModelPath.ModelStatus(app.prefs, host))
            && (run.outcome.LanguageRejected? ==> status == InvalidLanguageStatus)
            && (run.outcome.CliMissing? ==> status == CliMissingStatus)
            && (run.outcome.RunFailed? ==> status == ErrorStatus)
            && (run.outcome.NoSpeech? || run.outcome.Recognized? ==> status == ModelPath.Ready)
  {
  }
}

=== FILE: environment.dfy ===
/**
 The facts about the machine that the pipeline consults but does not decide.
 The filesystem calls are uninterpreted: `standardizingPath` is an arbitrary
 function, `fileExists` and `isExecutableFile` are arbitrary sets.
 */
module Environment {

  datatype FileSystem = FileSystem(
    standardize: string -> string,  // NSString.standardizingPath
    files: set<string>,             // the paths fileExists(atPath:) holds for
    executables: set<string>)       // the paths isExecutableFile(atPath:) holds for

  /** The running process: the home directory (NSHomeDirectory()), the audio
      file path it records to, and its view of the filesystem. */
  datatype Host = Host(home: string, audioPath: string, fs: FileSystem)
}

=== FILE: languages.dfy ===
/** The fixed table of languages whisper-cli is allowed to be asked for. */
module Languages {
  import opened Text

  /** Language code to display name; 31 entries. */
  const Codes: map<string, string> := map[
    "hu" := "Magyar",
    "en" := "English",
    "de" := "Deutsch",
    "fr" := "Français",
    "es" := "Español",
    "it" := "Italiano",
    "pt" := "Português",
    "nl" := "Nederlands",
    "pl" := "Polski",
    "ru" := "Русский",
    "uk" := "Українська",
    "cs" := "Čeština",
    "sk" := "Slovenčina",
    "ro" := "Română",
    "hr" := "Hrvatski",
    "sr" := "Srpski",
    "sl" := "Slovenščina",
    "ja" := "日本語",
    "zh" := "中文",
    "ko" := "한국어",
    "ar" := "العربية",
    "tr" := "Türkçe",
    "vi" := "Tiếng Việt",
    "th" := "ไทย",
    "el" := "Ελληνικά",
    "he" := "עברית",
    "hi" := "हिन्दी",
    "sv" := "Svenska",
    "da" := "Dansk",
    "fi" := "Suomi",
    "no" := "Norsk"
  ]

  predicate IsLowerLetter(c: char) {
    'a' <= c <= 'z'
  }

  /** Every key of the table is two ASCII lower-case letters. */
  lemma KeyShape(key: string)
    requires key in Codes
    ensures |key| == 2 && IsLowerLetter(key[0]) && IsLowerLetter(key[1])
  {
  }

  /** Case-insensitive membership in the table. An accepted code is two
      characters long, and its lower case, which is what reaches
      whisper-cli, is two ASCII lower-case letters. */
  function IsValid(code: string): (valid: bool)
    ensures valid ==> |code| == 2
    ensures valid ==> IsLowerLetter(Lowercase(code)[0]) && IsLowerLetter(Lowercase(code)[1])
  {
    var lower := Lowercase(code);
    if lower in Codes then KeyShape(lower); true else false
  }

  /** The check ignores case, and it holds exactly for the strings whose lower
      case is a key of the table. */
  lemma CaseInsensitive(code: string)
    ensures IsValid(code) == IsValid(Lowercase(code))
    ensures IsValid(code) <==> Lowercase(code) in Codes.Keys
  {
    LowercaseIdempotent(code);
  }

  /** Codes are accepted in any case. */
  lemma AcceptsAnyCase()
    ensures IsValid("hu") && IsValid("EN") && IsValid("De")
  {
    assert Lowercase("hu") == "hu";
    assert Lowercase("EN") == "en";
    assert Lowercase("De") == "de";
  }

  /** The empty string, codes outside the table, three-letter codes and
      codes with padding are refused. */
  lemma RefusesOthers()
    ensures !IsValid("") && !IsValid("xx") && !IsValid("eng") && !IsValid("en ")
  {
    assert Lowercase("xx") == "xx";
  }
}

=== FILE: legacy.dfy ===
/**
 The earlier variant of the app (the top-level main.swift): the same toggle
 and the same caption parser, but a fixed tool location, model, language and
 audio file, no validation before the tool is run, no status line, no
 preferences (sounds always play) and no removal of the audio file.
 */
module Legacy {
  import opened Options
  import opened Environment
  import Transcription
  import Capture
  import Caption
  import Dictation
  import Settings
  import ModelPath
  import Locator
  import Text

  const AudioPath := "/tmp/whisper-dictate.wav"
  const WhisperCli := "/opt/homebrew/bin/whisper-cli"

  /** The one command this variant ever runs: the argument vector the newer
      variant builds from the default preferences and the old audio path. */
  function Command(home: string): (inv: Transcription.Invocation)
    ensures inv.executable == WhisperCli
    ensures inv.arguments == Transcription.Arguments(Settings.ModelPath(Settings.Unset, home),
                                                     Settings.Language(Settings.Unset), AudioPath)
  {
    assert Text.Lowercase("hu") == "hu";
    Transcription.Invocation(WhisperCli, ["-m", Settings.DefaultModelPath(home), "-l", "hu", "-f", AudioPath])
  }

  datatype App = App(
    recorder: Capture.Recorder,
    pending: nat,                  // transcriptions dispatched, not yet completed
    icon: Dictation.Icon,
    clipboard: Option<string>)

  datatype Event =
    | Hotkey(recorderCreated: bool, recordStarted: bool)
    | Completed(tool: Transcription.ToolRun)

  datatype Transition = Transition(app: App, effects: Dictation.Effects)

  function Played(sound: Dictation.Sound): Dictation.Effects {
    Dictation.Effects(Some(sound), None, false)
  }

  /** `toggleRecording` with its `startRecording` and the synchronous part of
      `stopRecordingAndTranscribe`. */
  function ToggleRecording(app: App, created: bool, started: bool): (t: Transition)
    ensures t.app.recorder == Capture.Toggle(app.recorder, created, started)
    ensures t.effects.sound.Some?
  {
    var rec := Capture.Toggle(app.recorder, created, started);
    if app.recorder.isRecording then
      Transition(app.(recorder := rec, pending := app.pending + 1, icon := Dictation.Hourglass), Played(Dictation.Pop))
    else if created then
      Transition(app.(recorder := rec, icon := Dictation.RedDot), Played(Dictation.Tink))
    else
      Transition(app.(recorder := rec), Played(Dictation.Basso))
  }

  /** `transcribe()` and what the main thread does with its result. The
      command is attempted unconditionally and the audio file is left in
      place. */
  function Complete(app: App, home: string, tool: Transcription.ToolRun): (t: Transition)
    requires app.pending > 0
    ensures t.app.recorder == app.recorder
    ensures t.app.pending == app.pending - 1
    ensures t.effects.attempted == Some(Command(home))
    ensures t.effects.sound.Some?
    ensures t.effects.keystroke <==> Transcription.Interpret(tool).Recognized?
    ensures t.effects.keystroke ==> t.app.clipboard == Some(Transcription.Interpret(tool).text)
    ensures !t.effects.keystroke ==> t.app.clipboard == app.clipboard
  {
    var base := app.(pending := app.pending - 1, icon := Dictation.Microphone);
    match Transcription.Interpret(tool)
    case Recognized(text) =>
      Transition(base.(clipboard := Some(text)), Dictation.Effects(Some(Dictation.Glass), Some(Command(home)), true))
    case _ =>
      Transition(base, Dictation.Effects(Some(Dictation.Basso), Some(Command(home)), false))
  }

  /** One event. A hotkey always plays a sound and never launches or pastes;
      a completion never touches the recorder and attempts to launch the
      fixed command; a completion with nothing dispatched changes nothing. */
  function Step(app: App, home: string, event: Event): (t: Transition)
    ensures event.Hotkey? ==> t.effects.sound.Some? && t.effects.attempted.None? && !t.effects.keystroke
    ensures event.Completed? ==> t.app.recorder == app.recorder
    ensures event.Completed? && app.pending > 0 ==> t.effects.attempted == Some(Command(home))
    ensures event.Completed? && app.pending == 0 ==> t.app == app && t.effects.attempted.None?
  {
    match event
    case Hotkey(created, started) => ToggleRecording(app, created, started)
    case Completed(tool) =>
      if app.pending == 0 then Transition(app, Dictation.Effects(None, None, false))
      else Complete(app, home, tool)
  }

  /** The variant's parser is the caption parser: a completion pastes exactly
      the non-empty transcript of the tool's output, and an empty transcript
      (or a failed launch) pastes nothing and leaves the clipboard alone. */
  lemma {:induction false} PastesTranscript(app: App, home: string, tool: Transcription.ToolRun)
    requires app.pending > 0
    ensures var t := Step(app, home, Completed(tool));
            && (t.effects.keystroke <==> tool.Finished? && Caption.Transcript(tool.stdout) != [])
            && (t.effects.keystroke ==> t.app.clipboard == Some(Caption.Transcript(tool.stdout)))
            && (!t.effects.keystroke ==> t.app.clipboard == app.clipboard)
  {
    var t := Complete(app, home, tool);
    assert Step(app, home, Completed(tool)) == t;
  }

  /** Nothing is checked before the run: a launch of the fixed command is
      attempted even when the model file fails every check of the newer
      variant and no whisper-cli is executable. */
  lemma RunsWithoutValidation(app: App, host: Host, tool: Transcription.ToolRun)
    requires app.pending > 0
    requires !ModelPath.Validate(Settings.DefaultModelPath(host.home), host.fs).valid
    requires Locator.FindWhisperCli(host).None?
    ensures Step(app, host.home, Completed(tool)).effects.attempted == Some(Command(host.home))
  {
  }

  /** The audio file is never removed by a completion. */
  lemma AudioKept(app: App, home: string, tool: Transcription.ToolRun)
    ensures Step(app, home, Completed(tool)).app.recorder.audioFile == app.recorder.audioFile
  {
  }

  /** On defaults, and when the newer variant's guards pass with the Homebrew
      copy found and the old audio path, both variants attempt the same
      command and end the same way. */
  lemma {:induction false} VariantsAgree(host: Host, tool: Transcription.ToolRun)
    requires host.audioPath == AudioPath
    requires Transcription.GuardsPass(Settings.Unset, host)
    requires Locator.FindWhisperCli(host) == Some(WhisperCli)
    ensures var run := Transcription.Transcribe(Settings.Unset, host, tool);
            run.attempted == Some(Command(host.home)) && run.outcome == Transcription.Interpret(tool)
  {
    assert Text.Lowercase("hu") == "hu";
  }
}

=== FILE: locator.dfy ===
/** Where the app looks for whisper-cli, and which copy it picks. */
module Locator {
  import opened Options
  import opened Environment

  /** The candidate locations, in the order they are tried: Homebrew on Apple
      silicon, Homebrew on Intel, MacPorts, then ~/bin. */
  function Candidates(home: string): seq<string> {
    [ "/opt/homebrew/bin/whisper-cli",
      "/usr/local/bin/whisper-cli",
      "/opt/local/bin/whisper-cli",
      home + "/bin/whisper-cli" ]
  }

  /** The first path in `paths` that is executable, if any. */
  function FirstExecutable(paths: seq<string>, executables: set<string>): (r: Option<string>)
    ensures r.None? <==> forall i :: 0 <= i < |paths| ==> paths[i] !in executables
    ensures r.Some? ==> exists i :: 0 <= i < |paths| && paths[i] == r.value && r.value in executables
                                  && forall j :: 0 <= j < i ==> paths[j] !in executables
  {
    if paths == [] then None
    else if paths[0] in executables then Some(paths[0])
    else
      var r := FirstExecutable(paths[1..], executables);
      assert forall i :: 1 <= i < |paths| ==> paths[i] == paths[1..][i - 1];
      r
  }

  /** `findWhisperCLI`. */
  function FindWhisperCli(host: Host): (r: Option<string>)
    ensures r.Some? ==> r.value in host.fs.executables && r.value in Candidates(host.home)
    ensures r.None? <==> forall p :: p in Candidates(host.home) ==> p !in host.fs.executables
  {
    FirstExecutable(Candidates(host.home), host.fs.executables)
  }

  /** An executable Homebrew copy on Apple silicon wins over every other. */
  lemma HomebrewPreferred(host: Host)
    requires "/opt/homebrew/bin/whisper-cli" in host.fs.executables
    ensures FindWhisperCli(host) == Some("/opt/homebrew/bin/whisper-cli")
  {
  }

  /** A later candidate is picked only when every earlier one is not executable. */
  lemma LaterOnlyIfEarlierMissing(host: Host, k: nat)
    requires k < 4
    requires FindWhisperCli(host) == Some(Candidates(host.home)[k])
    requires forall j :: 0 <= j < k ==> Candidates(host.home)[j] != Candidates(host.home)[k]
    ensures forall j :: 0 <= j < k ==> Candidates(host.home)[j] !in host.fs.executables
  {
  }
}

=== FILE: model_path.dfy ===
/**
 The model-path validator and the two places the macOS app uses it outside
 transcription: the status line shown after a check, and the settings field
 that commits a typed path only when it validates.
 */
module ModelPath {
  import opened Options
  import opened Text
  import opened Environment
  import Settings

  /** The `(valid, error)` pair the validator returns. */
  datatype Validation = Validation(valid: bool, error: Option<string>)

  const WrongExtension := "Model must be a .bin file"
  const InvalidPath := "Invalid path"
  const NotFound := "Model not found"

  /** The status-line prefix, the warning sign emoji. */
  const Warning := "\U{26A0}\U{FE0F} "

  const Ready := "Ready"

  predicate HasBinSuffix(s: string) {
    |s| >= 4 && s[|s| - 4..] == ".bin"
  }

  /** `contains("..")`: two dots in a row anywhere, not only as a path segment. */
  predicate ContainsDotDot(s: string) {
    exists i :: 0 <= i < |s| - 1 && s[i] == '.' && s[i + 1] == '.'
  }

  /** Three checks in order, the first failure deciding the message: the
      suffix (on the lower-cased path, before the filesystem is consulted),
      then ".." in the standardized path, then existence of that path. */
  function Validate(path: string, fs: FileSystem): (v: Validation)
    ensures v.valid <==> v.error.None?
    ensures v.error.Some? ==> v.error.value in {WrongExtension, InvalidPath, NotFound}
  {
    if !HasBinSuffix(Lowercase(path)) then Validation(false, Some(WrongExtension))
    else
      var normalized := fs.standardize(path);
      if ContainsDotDot(normalized) then Validation(false, Some(InvalidPath))
      else if normalized !in fs.files then Validation(false, Some(NotFound))
      else Validation(true, None)
  }

  /** A path whose lower case does not end in ".bin" is refused with the
      extension message on every filesystem: nothing else is looked at. */
  lemma ExtensionCheckedFirst(path: string, fs: FileSystem)
    requires !HasBinSuffix(Lowercase(path))
    ensures Validate(path, fs) == Validation(false, Some(WrongExtension))
  {
  }

  /** A ".bin" path whose standardized form contains ".." is refused as an
      invalid path whatever files exist. */
  lemma TraversalRefused(path: string, fs: FileSystem)
    requires HasBinSuffix(Lowercase(path))
    requires ContainsDotDot(fs.standardize(path))
    ensures Validate(path, fs) == Validation(false, Some(InvalidPath))
  {
  }

  /** A ".bin" path that passes the traversal check but whose standardized
      form does not exist is refused as not found. */
  lemma MissingFileNotFound(path: string, fs: FileSystem)
    requires HasBinSuffix(Lowercase(path))
    requires !ContainsDotDot(fs.standardize(path))
    requires fs.standardize(path) !in fs.files
    ensures Validate(path, fs) == Validation(false, Some(NotFound))
  {
  }

  /** Valid exactly when all three checks pass. */
  lemma ValidIff(path: string, fs: FileSystem)
    ensures Validate(path, fs).valid <==>
      HasBinSuffix(Lowercase(path)) && !ContainsDotDot(fs.standardize(path)) && fs.standardize(path) in fs.files
  {
  }

  /** The suffix test ignores case. */
  lemma SuffixIgnoresCase(fs: FileSystem)
    requires fs.standardize("/m/ggml-base.BIN") == "/m/ggml-base.BIN"
    requires "/m/ggml-base.BIN" in fs.files
    ensures Validate("/m/ggml-base.BIN", fs).valid
  {
    var lower := Lowercase("/m/ggml-base.BIN");
    assert lower[|lower| - 4..] == ".bin";
    var path := "/m/ggml-base.BIN";
    assert forall i :: 0 <= i < |path| && i != 12 ==> path[i] != '.';
  }

  /** Two dots inside a file name are refused although they climb no
      directory: the test is on the substring. */
  lemma DoubleDotInNameRefused(fs: FileSystem)
    requires fs.standardize("/m/ggml..bin") == "/m/ggml..bin"
    ensures Validate("/m/ggml..bin", fs) == Validation(false, Some(InvalidPath))
  {
    assert "/m/ggml..bin"[7] == '.' && "/m/ggml..bin"[8] == '.';
    var lower := Lowercase("/m/ggml..bin");
    assert lower[|lower| - 4..] == ".bin";
  }

  /** `checkModelExists`: the status line for the stored model path, "Ready"
      exactly when it validates and otherwise the warning with its reason. */
  function ModelStatus(prefs: Settings.Preferences, host: Host): (status: string)
    ensures status == Ready <==> Validate(Settings.ModelPath(prefs, host.home), host.fs).valid
    ensures status != Ready ==> status == Warning + Validate(Settings.ModelPath(prefs, host.home), host.fs).error.value
  {
    var v := Validate(Settings.ModelPath(prefs, host.home), host.fs);
    if !v.valid then
      assert (Warning + v.error.GetOr("Invalid model"))[0] != Ready[0];
      Warning + v.error.GetOr("Invalid model")
    else Ready
  }

  /** What an edit of the model-path field leaves behind. */
  datatype Edit = Edit(prefs: Settings.Preferences, status: string)

  /** `modelPathChanged`: the typed path is stored only when it validates;
      otherwise the stored preferences stay exactly as they were. Either way
      the status line is refreshed from the path now stored. */
  function ModelPathChanged(prefs: Settings.Preferences, newPath: string, host: Host): (e: Edit)
    ensures Validate(newPath, host.fs).valid ==> Settings.ModelPath(e.prefs, host.home) == newPath
    ensures Validate(newPath, host.fs).valid ==> e.status == Ready
    ensures !Validate(newPath, host.fs).valid ==> e.prefs == prefs
    ensures Settings.Language(e.prefs) == Settings.Language(prefs)
    ensures Settings.PlaySounds(e.prefs) == Settings.PlaySounds(prefs)
    ensures e.status == ModelStatus(e.prefs, host)
  {
    var validation := Validate(newPath, host.fs);
    var stored := if validation.valid then Settings.SetModelPath(prefs, newPath) else prefs;
    Edit(stored, ModelStatus(stored, host))
  }
}

=== FILE: options.dfy ===
/** The optional value that Swift spells `T?`. */
module Options {

  datatype Option<+T> = None | Some(value: T) {

    /** Swift's `x ?? fallback`. */
    function GetOr(fallback: T): T {
      match this
      case Some(v) => v
      case None => fallback
    }
  }
}

=== FILE: settings.dfy ===
/**
 The three user preferences, as the macOS app keeps them in UserDefaults: a
 key that was never written reads back as its default.
 */
module Settings {
  import opened Options

  datatype Preferences = Preferences(
    language: Option<string>,
    modelPath: Option<string>,
    playSounds: Option<bool>)

  /** A fresh install: nothing stored yet. */
  const Unset := Preferences(None, None, None)

  const DefaultLanguage := "hu"

  function DefaultModelPath(home: string): string {
    home + "/.whisper-models/ggml-medium.bin"
  }

  /** The stored language, or "hu" when none was stored. */
  function Language(p: Preferences): (code: string)
    ensures p.language.Some? ==> code == p.language.value
    ensures p.language.None? ==> code == DefaultLanguage
  {
    p.language.GetOr(DefaultLanguage)
  }

  /** The stored model path, or the medium model under the home directory
      when none was stored. */
  function ModelPath(p: Preferences, home: string): (path: string)
    ensures p.modelPath.Some? ==> path == p.modelPath.value
    ensures p.modelPath.None? ==> path == DefaultModelPath(home)
  {
    p.modelPath.GetOr(DefaultModelPath(home))
  }

  /** The stored sound switch, on when none was stored. */
  function PlaySounds(p: Preferences): (on: bool)
    ensures p.playSounds.Some? ==> on == p.playSounds.value
    ensures p.playSounds.None? ==> on
  {
    p.playSounds.GetOr(true)
  }

  /** Before anything is stored, every getter reads its default. */
  lemma UnsetReadsDefaults(home: string)
    ensures Language(Unset) == "hu"
    ensures ModelPath(Unset, home) == home + "/.whisper-models/ggml-medium.bin"
    ensures PlaySounds(Unset)
  {
  }

  /** Storing a language: it reads back, the other two preferences do not move. */
  function SetLanguage(p: Preferences, code: string): (q: Preferences)
    ensures Language(q) == code
    ensures forall home :: ModelPath(q, home) == ModelPath(p, home)
    ensures PlaySounds(q) == PlaySounds(p)
  {
    p.(language := Some(code))
  }

  /** Storing a model path: it reads back whatever the home directory, the
      other two preferences do not move. */
  function SetModelPath(p: Preferences, path: string): (q: Preferences)
    ensures forall home :: ModelPath(q, home) == path
    ensures Language(q) == Language(p)
    ensures PlaySounds(q) == PlaySounds(p)
  {
    p.(modelPath := Some(path))
  }

  /** Storing the sound preference: it reads back, the rest does not move. */
  function SetPlaySounds(p: Preferences, on: bool): (q: Preferences)
    ensures PlaySounds(q) == on
    ensures Language(q) == Language(p)
    ensures forall home :: ModelPath(q, home) == ModelPath(p, home)
  {
    p.(playSounds := Some(on))
  }
}

=== FILE: text.dfy ===
/**
 The three string operations the dictation pipeline leans on, over strings
 seen as sequences of Unicode scalars:
 - trimming with Foundation's `CharacterSet.whitespaces`,
 - `lowercased()`, as far as it can matter to the language table and the
   ".bin" suffix check,
 - `components(separatedBy:)` with a one-character separator.
 */
module Text {

  /** A member of `CharacterSet.whitespaces`: the tab and the Unicode space
      separators (general category Zs). Line feed and carriage return are not
      members, so trimming never removes them. */
  predicate IsSpace(c: char) {
    || c == '\t'
    || c == ' '
    || c == '\U{A0}'
    || c == '\U{1680}'
    || ('\U{2000}' <= c <= '\U{200A}')
    || c == '\U{202F}'
    || c == '\U{205F}'
    || c == '\U{3000}'
  }

  predicate AllSpace(s: string) {
    forall i :: 0 <= i < |s| ==> IsSpace(s[i])
  }

  /** Neither end of `s` is a space. */
  predicate IsTrimmed(s: string) {
    s == [] || (!IsSpace(s[0]) && !IsSpace(s[|s| - 1]))
  }

  /** `s` with its leading spaces removed. */
  function TrimStart(s: string): (r: string)
    ensures |r| <= |s| && r == s[|s| - |r|..]
    ensures AllSpace(s[..|s| - |r|])
    ensures r == [] || !IsSpace(r[0])
  {
    if s == [] || !IsSpace(s[0]) then s else TrimStart(s[1..])
  }

  /** `s` with its trailing spaces removed. */
  function TrimEnd(s: string): (r: string)
    ensures |r| <= |s| && r == s[..|r|]
    ensures AllSpace(s[|r|..])
    ensures r == [] || !IsSpace(r[|r| - 1])
  {
    if s == [] || !IsSpace(s[|s| - 1]) then s else TrimEnd(s[..|s| - 1])
  }

  /** `trimmingCharacters(in: .whitespaces)`. */
  function Trim(s: string): (r: string)
    ensures IsTrimmed(r)
    ensures |r| <= |s|
  {
    TrimEnd(TrimStart(s))
  }

  /** The trimmed string is the infix of `s` left once the spaces at both
      ends are cut off. */
  lemma TrimIsInfix(s: string)
    ensures exists i :: 0 <= i <= |s| - |Trim(s)| && Trim(s) == s[i..i + |Trim(s)|]
                        && AllSpace(s[..i]) && AllSpace(s[i + |Trim(s)|..])
  {
    var t := TrimStart(s);
    var r := TrimEnd(t);
    var i := |s| - |t|;
    assert r == s[i..i + |r|];
    assert s[i + |r|..] == t[|r|..];
  }

  /** Leading spaces make no difference to TrimStart. */
  lemma {:induction false} TrimStartSkips(p: string, x: string)
    requires AllSpace(p)
    ensures TrimStart(p + x) == TrimStart(x)
  {
    if p != [] {
      assert (p + x)[0] == p[0];
      assert (p + x)[1..] == p[1..] + x;
      TrimStartSkips(p[1..], x);
    } else {
      assert p + x == x;
    }
  }

  /** Trailing spaces make no difference to TrimEnd. */
  lemma {:induction false} TrimEndSkips(x: string, q: string)
    requires AllSpace(q)
    ensures TrimEnd(x + q) == TrimEnd(x)
  {
    if q != [] {
      var q' := q[..|q| - 1];
      assert (x + q)[|x + q| - 1] == q[|q| - 1];
      assert (x + q)[..|x + q| - 1] == x + q';
      TrimEndSkips(x, q');
    } else {
      assert x + q == x;
    }
  }

  /** The characterisation of TrimIsInfix determines the result: whatever is
      left between two runs of spaces, if it has no space at either end, is
      the trimmed string. */
  lemma TrimIsInner(p: string, r: string, q: string)
    requires AllSpace(p) && AllSpace(q) && IsTrimmed(r)
    ensures Trim(p + r + q) == r
  {
    if r == [] {
      assert p + r + q == p + q;
      TrimStartSkips(p, q);
      SpacesTrimAway(q);
    } else {
      var x := r + q;
      assert p + r + q == p + x;
      TrimStartSkips(p, x);
      assert x[0] == r[0];
      TrimEndSkips(r, q);
    }
  }

  /** A run of spaces trims away to nothing from the front. */
  lemma {:induction false} SpacesTrimAway(q: string)
    requires AllSpace(q)
    ensures TrimStart(q) == []
  {
    if q != [] {
      SpacesTrimAway(q[1..]);
    }
  }

  /** Trimming leaves nothing exactly when the string is all spaces. */
  lemma {:induction false} TrimEmptyIff(s: string)
    ensures Trim(s) == [] <==> AllSpace(s)
  {
    if AllSpace(s) {
      SpacesTrimAway(s);
    } else {
      NonBlankSurvives(s);
    }
  }

  lemma {:induction false} NonBlankSurvives(s: string)
    requires !AllSpace(s)
    ensures Trim(s) != []
  {
    var t := TrimStart(s);
    assert s == s[..|s| - |t|] + t;
  }

  /** Trimming is idempotent. */
  lemma TrimIdempotent(s: string)
    ensures Trim(Trim(s)) == Trim(s)
  {
    var t := Trim(s);
    assert TrimStart(t) == t;
    assert TrimEnd(t) == t;
  }

  /** Swift's `lowercased()` on one scalar, for the scalars whose lower case
      is a single ASCII letter: 'A'..'Z' and the Kelvin sign. Every other
      scalar is kept (see README for why that is exact for the checks here). */
  function LowerChar(c: char): char {
    if 'A' <= c <= 'Z' then (c as int + 32) as char
    else if c == '\U{212A}' then 'k'
    else c
  }

  /** A scalar `lowercased()` changes: 'A'..'Z' and the Kelvin sign. */
  predicate IsUpper(c: char) {
    'A' <= c <= 'Z' || c == '\U{212A}'
  }

  /** No upper-case scalar is left; 'A'..'Z' move 32 code points up to
      'a'..'z', the Kelvin sign becomes 'k', and every other scalar stays
      where it is. */
  function Lowercase(s: string): (r: string)
    ensures |r| == |s|
    ensures forall i :: 0 <= i < |r| ==> !IsUpper(r[i])
    ensures forall i :: 0 <= i < |s| && !IsUpper(s[i]) ==> r[i] == s[i]
    ensures forall i :: 0 <= i < |s| && 'A' <= s[i] <= 'Z' ==> r[i] as int == s[i] as int + 32
    ensures forall i :: 0 <= i < |s| && s[i] == '\U{212A}' ==> r[i] == 'k'
  {
    seq(|s|, i requires 0 <= i < |s| => LowerChar(s[i]))
  }

  /** Lower-casing twice is lower-casing once. */
  lemma LowercaseIdempotent(s: string)
    ensures Lowercase(Lowercase(s)) == Lowercase(s)
  {
  }

  /** `components(separatedBy:)` with a one-character separator: the pieces
      between separators, in order, empty pieces included; never an empty
      sequence (the empty string gives one empty piece). */
  function Split(s: string, sep: char): (parts: seq<string>)
    ensures |parts| >= 1
    ensures forall i :: 0 <= i < |parts| ==> sep !in parts[i]
  {
    if s == [] then [[]]
    else
      var rest := Split(s[1..], sep);
      if s[0] == sep then [[]] + rest
      else [[s[0]] + rest[0]] + rest[1..]
  }

  /** The inverse of Split: the pieces put back together with the separator. */
  function Join(parts: seq<string>, sep: char): string
    requires |parts| >= 1
  {
    if |parts| == 1 then parts[0] else parts[0] + [sep] + Join(parts[1..], sep)
  }

  /** Splitting loses nothing: joining the pieces gives the input back. */
  lemma {:induction false} SplitJoin(s: string, sep: char)
    ensures Join(Split(s, sep), sep) == s
  {
    if s != [] {
      var rest := Split(s[1..], sep);
      SplitJoin(s[1..], sep);
      if s[0] != sep {
        if |rest| == 1 {
          assert [s[0]] + s[1..] == s;
        } else {
          assert rest[1..][0] == rest[1];
          assert ([[s[0]] + rest[0]] + rest[1..])[1..] == rest[1..];
          assert Join(rest, sep) == rest[0] + [sep] + Join(rest[1..], sep);
          assert [s[0]] + s[1..] == s;
        }
      } else {
        assert ([[]] + rest)[1..] == rest;
        assert [sep] + s[1..] == s;
      }
    }
  }

  /** A string with no separator is one piece. */
  lemma {:induction false} SplitNoSeparator(s: string, sep: char)
    requires sep !in s
    ensures Split(s, sep) == [s]
  {
    if s != [] {
      SplitNoSeparator(s[1..], sep);
      assert [s[0]] + s[1..] == s;
    }
  }

  /** The first line of a multi-line string is its own piece. */
  lemma SplitFirstLine(a: string, b: string, sep: char)
    requires sep !in a
    ensures Split(a + [sep] + b, sep) == [a] + Split(b, sep)
  {
    if a == [] {
      assert a + [sep] + b == [sep] + b;
      assert ([sep] + b)[1..] == b;
    } else {
      var s := a + [sep] + b;
      assert s[0] == a[0];
      assert s[1..] == a[1..] + [sep] + b;
      SplitFirstLine(a[1..], b, sep);
      assert [a[0]] + a[1..] == a;
    }
  }
}

=== FILE: transcription.dfy ===
/**
 `transcribe()` of the macOS app: three guards in a fixed order (the model
 path, the language, the location of whisper-cli), then one run of the tool
 on the recorded audio, whose standard output goes through the caption
 parser. The run itself is an oracle: either the process could not be
 launched (`run()` threw), or it finished and left its decoded standard
 output. The exit
 status is never consulted.
 */
module Transcription {
  import opened Options
  import opened Text
  import opened Environment
  import Settings
  import Languages
  import ModelPath
  import Locator
  import Caption

  /** What running whisper-cli gave back. */
  datatype ToolRun = Finished(stdout: string) | LaunchFailed

  /** The process that was started: executable and argument vector. */
  datatype Invocation = Invocation(executable: string, arguments: seq<string>)

  /** How one transcription ends. */
  datatype Outcome =
    | ModelRejected(reason: string)  // model-path check failed, with its message
    | LanguageRejected               // language not in the table
    | CliMissing                     // no candidate location is executable
    | RunFailed                      // the process could not be launched
    | NoSpeech                       // the process ran, the transcript is empty
    | Recognized(text: string)       // the process ran, the transcript is this text

  /** The run: the process whose launch was attempted (if any; the attempt
      itself may fail), whether the audio file is removed afterwards, and
      how it ended. */
  datatype Run = Run(attempted: Option<Invocation>, removesAudio: bool, outcome: Outcome)

  /** `-m <model> -l <language in lower case> -f <audio file>`. */
  function Arguments(modelPath: string, language: string, audioPath: string): (args: seq<string>)
    ensures |args| == 6
    ensures args[0] == "-m" && args[2] == "-l" && args[4] == "-f"
    ensures args[1] == modelPath && args[3] == Lowercase(language) && args[5] == audioPath
  {
    ["-m", modelPath, "-l", Lowercase(language), "-f", audioPath]
  }

  /** Everything the guards establish about a process before it is started:
      the executable is one of the candidate locations and is executable, the
      model argument passes validation, the language argument is a lower-case
      key of the table, and the audio argument is this process's audio file. */
  predicate SafeInvocation(inv: Invocation, host: Host) {
    && inv.executable in Locator.Candidates(host.home)
    && inv.executable in host.fs.executables
    && |inv.arguments| == 6
    && inv.arguments[0] == "-m" && inv.arguments[2] == "-l" && inv.arguments[4] == "-f"
    && ModelPath.Validate(inv.arguments[1], host.fs).valid
    && inv.arguments[3] in Languages.Codes
    && inv.arguments[5] == host.audioPath
  }

  /** The three guards all pass. */
  predicate GuardsPass(prefs: Settings.Preferences, host: Host) {
    && ModelPath.Validate(Settings.ModelPath(prefs, host.home), host.fs).valid
    && Languages.IsValid(Settings.Language(prefs))
    && Locator.FindWhisperCli(host).Some?
  }

  /** What the completed process produced. */
  function Interpret(tool: ToolRun): (outcome: Outcome)
    ensures outcome.RunFailed? <==> tool.LaunchFailed?
    ensures outcome.Recognized? ==> tool.Finished? && outcome.text == Caption.Transcript(tool.stdout) && outcome.text != []
    ensures outcome.NoSpeech? ==> tool.Finished? && Caption.Transcript(tool.stdout) == []
    ensures outcome.RunFailed? || outcome.NoSpeech? || outcome.Recognized?
  {
    match tool
    case LaunchFailed => RunFailed
    case Finished(stdout) =>
      var result := Caption.Transcript(stdout);
      if result != [] then Recognized(result) else NoSpeech
  }

  /** `transcribe()`, from the preferences read when it runs. */
  function Transcribe(prefs: Settings.Preferences, host: Host, tool: ToolRun): (run: Run)
    ensures run.attempted.Some? <==> GuardsPass(prefs, host)
    ensures run.removesAudio <==> run.attempted.Some?
    ensures run.attempted.Some? ==> SafeInvocation(run.attempted.value, host)
    ensures run.attempted.Some? ==> run.outcome == Interpret(tool)
    ensures run.attempted.None? ==> run.outcome.ModelRejected? || run.outcome.LanguageRejected? || run.outcome.CliMissing?
    ensures run.outcome.Recognized? ==> run.outcome.text != [] && IsTrimmed(run.outcome.text)
  {
    var modelPath := Settings.ModelPath(prefs, host.home);
    var language := Settings.Language(prefs);
    var modelValidation := ModelPath.Validate(modelPath, host.fs);
    if !modelValidation.valid then
      Run(None, false, ModelRejected(modelValidation.error.GetOr("Invalid model")))
    else if !Languages.IsValid(language) then
      Run(None, false, LanguageRejected)
    else
      match Locator.FindWhisperCli(host)
      case None => Run(None, false, CliMissing)
      case Some(whisperPath) =>
        var inv := Invocation(whisperPath, Arguments(modelPath, language, host.audioPath));
        Run(Some(inv), true, Interpret(tool))
  }

  /** The model path is checked first: when it fails, no launch is attempted,
      the audio stays, and the reason is the validator's own message. */
  lemma ModelCheckedFirst(prefs: Settings.Preferences, host: Host, tool: ToolRun)
    requires !ModelPath.Validate(Settings.ModelPath(prefs, host.home), host.fs).valid
    ensures var run := Transcribe(prefs, host, tool);
            run.attempted.None? && !run.removesAudio &&
            run.outcome == ModelRejected(ModelPath.Validate(Settings.ModelPath(prefs, host.home), host.fs).error.value)
  {
  }

  /** The language is checked second, before the tool is looked for. */
  lemma LanguageCheckedSecond(prefs: Settings.Preferences, host: Host, tool: ToolRun)
    requires ModelPath.Validate(Settings.ModelPath(prefs, host.home), host.fs).valid
    requires !Languages.IsValid(Settings.Language(prefs))
    ensures Transcribe(prefs, host, tool) == Run(None, false, LanguageRejected)
  {
  }

  /** The tool is looked for last. */
  lemma LocatorCheckedLast(prefs: Settings.Preferences, host: Host, tool: ToolRun)
    requires ModelPath.Validate(Settings.ModelPath(prefs, host.home), host.fs).valid
    requires Languages.IsValid(Settings.Language(prefs))
    requires Locator.FindWhisperCli(host).None?
    ensures Transcribe(prefs, host, tool) == Run(None, false, CliMissing)
  {
  }

  /** An early exit does not depend on what the tool would have printed:
      the tool is not run. */
  lemma EarlyExitIgnoresTool(prefs: Settings.Preferences, host: Host, a: ToolRun, b: ToolRun)
    requires Transcribe(prefs, host, a).attempted.None?
    ensures Transcribe(prefs, host, a) == Transcribe(prefs, host, b)
  {
  }

  /** When the guards pass, a launch is attempted of the located whisper-cli
      with the stored model, the lower-cased language and the audio file,
      and its result decides the outcome; the audio is removed on success and
      on a failed launch alike. */
  lemma AttemptedRun(prefs: Settings.Preferences, host: Host, tool: ToolRun)
    requires GuardsPass(prefs, host)
    ensures var run := Transcribe(prefs, host, tool);
            && run.attempted == Some(Invocation(Locator.FindWhisperCli(host).value,
                 ["-m", Settings.ModelPath(prefs, host.home), "-l", Lowercase(Settings.Language(prefs)), "-f", host.audioPath]))
            && run.removesAudio
            && (tool.LaunchFailed? <==> run.outcome == RunFailed)
            && (tool.Finished? ==> run.outcome == (if Caption.Transcript(tool.stdout) == [] then NoSpeech
                                                   else Recognized(Caption.Transcript(tool.stdout))))
  {
  }

  /** A recognized text is the transcript of what the tool printed. */
  lemma RecognizedIsTranscript(prefs: Settings.Preferences, host: Host, tool: ToolRun)
    ensures Transcribe(prefs, host, tool).outcome.Recognized? ==>
              tool.Finished? && Transcribe(prefs, host, tool).outcome.text == Caption.Transcript(tool.stdout)
  {
  }

  /** The language reaches the tool in lower case even when stored otherwise. */
  lemma LanguagePassedLowerCase(prefs: Settings.Preferences, host: Host, tool: ToolRun)
    requires GuardsPass(prefs, host)
    requires Settings.Language(prefs) == "EN"
    ensures Transcribe(prefs, host, tool).attempted.value.arguments[3] == "en"
  {
    assert Lowercase("EN") == "en";
  }
}
